=== FILE: README.md ===
# Map kernel and its test fixture

This project models the kernel of the `components.map` container
`Map<String, String>` as its JUnit fixture `test/MapTest.java` exercises it.

- **Kernel.** A map is a finite set of (key, value) pairs in which no key
  occurs twice. Its operations are:
  - a constructor that yields the empty map;
  - `add(k, v)`, which needs `k` absent;
  - `remove(k)`, which needs `k` present and hands back the detached pair;
  - `removeAny()`, which needs a non-empty map and hands back some pair;
  - `value(k)`, which needs `k` present;
  - `hasKey(k)` and `size()`, which are total.
  
  Two maps are equal when they hold the same pairs, however they were built.
- **Bulk construction.** `createFromArgsTest` / `createFromArgsRef` build a map
  from an argument list `k0, v0, k1, v1, …`. The list must have even length
  and unique keys. The loop steps by two, checks that the key is absent, and
  adds the pair.
- **Scenarios.** Most tests build `map` with the reference implementation
  (`createFromArgsRef`) and `expectedMap` with the implementation under test
  (`createFromArgsTest`). They apply one kernel operation to `map` and compare
  the two with `assertEquals`. There are three exceptions:
  - the constructor test compares a map from `constructorRef` with one from
    `constructorTest` and calls no kernel operation;
  - the four-removal test calls `remove` on `map` four times and checks each
    returned pair;
  - the three `removeAny` tests call `removeAny` on `map`, then `hasKey`,
    `value` and `remove` on `expectedMap`.

  So the operation being exercised always runs on the reference
  implementation. The implementation under test only builds the expected map
  with `add`, except in the three `removeAny` tests, which also call its
  `hasKey`, `value` and `remove`. Its `removeAny` and `size` are never
  called. In this model both are the one class `Map`, so every contract
  holds for both.

The project has three modules:

- `AssocList` (`assoc_list.dfy`): the pure side.
  - A `Pair` datatype.
  - The key-uniqueness invariant `Unique` over a sequence of pairs.
  - The abstract map `ToMap` that such a sequence denotes.
  - The facts relating the two: keys, lookup, size, append, splice-out, and
    independence from order.
- `MapKernel` (`map_kernel.dfy`): the class `Map`.
  - Its one field `entries: seq<Pair>` is an association list that the
    methods reassign.
  - `Valid()` is the uniqueness invariant. `Model()` is the abstract map.
  - The constructor states that the new map is empty (`Model() == map[]`).
  - `Add`, `Remove` and `RemoveAny` change the map (`modifies this`) and
    state their result and the new abstract map in terms of `old(Model())`.
  - `Value`, `HasKey` and `Size` state their result against `Model()`. They
    have no `modifies` clause, so they leave the map unchanged.
  - `Equals` models the `assertEquals` comparison. It returns true exactly
    when the two abstract maps are equal.
- `MapTest` (`map_test.dfy`): the fixture.
  - `ArgPairs` reads an argument list as its pairs.
  - `CreateFromArgs` is the bulk-construction loop.
  - `RemoveAll` / `CreateThenRemoveAll` drain a map key by key.
  - One scenario method per kind of test, proved for every argument list.
  - The fixture's own test cases, each with an `ensures` that states the
    test's assertions. All but two apply a scenario to the test's literal
    lists. `TestConstructorNoArgument` compares two newly constructed maps
    directly. `TestRemoveChallenging` goes through `CreateThenRemoveAll`
    (see "## Left out").

The three add tests and the two single-removal tests build their two lists
as `args` and `args + [k, v]`. The Java tests spell out both lists as
literals, which are the same lists. `TestRemoveChallenging` builds the
four-pair list and the empty list instead (see its line under "## Left out").

## Model

| member | source | states |
|---|---|---|
| AssocList.ToMapKeys | test/MapTest.java:42-46 | the keys of the map a pair list denotes are exactly the keys occurring in the list |
| AssocList.ToMapAt | test/MapTest.java:42-46 | with unique keys, every entry's key is in the denoted map and maps to that entry's value |
| AssocList.ToMapPairIn | test/MapTest.java:42-46 | with unique keys, every pair of the denoted map is one of the entries |
| AssocList.PairInToMap | test/MapTest.java:42-46 | with unique keys, every entry is a pair of the denoted map |
| AssocList.ToMapSize | test/MapTest.java:459-499 | with unique keys, the denoted map has exactly as many pairs as there are entries, so the size is the entry count |
| AssocList.ToMapAppend | test/MapTest.java:51-55 | appending a pair whose key is absent keeps keys unique and adds exactly that pair to the denoted map |
| AssocList.ToMapExtend | test/MapTest.java:51-55 | each prefix of a unique list is unique, its next key is absent from it, and one more entry adds exactly that pair |
| AssocList.ToMapRemoveAt | test/MapTest.java:177-220 | splicing one entry out of a unique list keeps it unique and removes exactly that key from the denoted map |
| AssocList.ToMapPermutation | test/MapTest.java:88-99 | two unique lists holding the same entries in any order denote the same map: equality is by contents, not by history |
| AssocList.SubmapOfSameSize | test/MapTest.java:88-99 | a map that agrees with another on all its own keys and has the same size equals it (the size-plus-containment equality test) |
| MapKernel.Map.constructor | test/MapTest.java:21-23 | a new map is empty and satisfies the uniqueness invariant |
| MapKernel.Map.Find | test/MapTest.java:52 | the lookup finds an entry holding the key exactly when the key occurs among the entries |
| MapKernel.Map.Add | test/MapTest.java:106-172 | for an absent key, the new map is the old map plus (k, v); every other pair is unchanged and keys stay unique |
| MapKernel.Map.Remove | test/MapTest.java:177-257 | for a present key, the pair handed back is (k, old value of k) and the new map is the old map minus k |
| MapKernel.Map.RemoveAny | test/MapTest.java:262-339 | on a non-empty map, the pair handed back was present with that value and the new map is the old map minus its key; which pair is taken is not fixed |
| MapKernel.Map.Value | test/MapTest.java:345-385 | for a present key, the result is the value the map holds for it; the map is not changed |
| MapKernel.Map.HasKey | test/MapTest.java:391-453 | the result is true if and only if the key is present; the map is not changed |
| MapKernel.Map.Size | test/MapTest.java:459-499 | the result is the number of pairs, and it is 0 exactly for the empty map; the map is not changed |
| MapKernel.Map.Equals | test/MapTest.java:88-99 | the result is true if and only if the two maps hold the same pairs |
| MapTest.ArgPairs | test/MapTest.java:51-54 | an even-length argument list, read two at a time, gives one pair per two arguments |
| MapTest.ArgPairsAt | test/MapTest.java:51-54 | the key at even position i and the value after it form pair i / 2 of the argument list |
| MapTest.ArgPairsAppend | test/MapTest.java:51-54 | appending a key and a value to an argument list appends that pair |
| MapTest.ArgsInPairs | test/MapTest.java:42-46 | every key of an even-length list with unique keys is in the built map, paired with the argument after it |
| MapTest.PairsInArgs | test/MapTest.java:42-46 | the built map has no key that is not a key of the list, and it has one pair per two arguments |
| MapTest.PairsInArgsAppend | test/MapTest.java:51-55 | adding an absent key and a value to a unique argument list keeps it unique and adds exactly that pair to its map |
| MapTest.CreateFromArgs | test/MapTest.java:42-57 | for an even-length list with unique keys, the loop's absence check always passes, and the result is a new valid map holding exactly the pairs of the list |
| MapTest.WithoutKey | test/MapTest.java:237-240 | after taking out a list of keys, a key is left exactly when it was present and is not in the list, with its old value |
| MapTest.WithoutStep | test/MapTest.java:237-240 | taking out one more key of the list removes exactly that key |
| MapTest.WithoutAll | test/MapTest.java:237-256 | taking out a list that covers every key leaves the empty map |
| MapTest.RemoveAll | test/MapTest.java:226-257 | removing every key once, in a given order, hands back for each key the pair the map held and leaves the map empty |
| MapTest.CreateThenRemoveAll | test/MapTest.java:226-257 | draining a bulk-built map in a given order hands back exactly the inserted pair for each key, and the result equals a map built from no arguments |
| MapTest.EmptyArgs | test/MapTest.java:183 | the empty argument list has unique keys and builds the empty map |
| MapTest.OnePairArgs | test/MapTest.java:112 | the list a,1 has unique keys and builds {a→1} |
| MapTest.ThreePairArgs | test/MapTest.java:133-134 | the list a,1,b,2,c,3 has unique keys and builds {a→1, b→2, c→3} |
| MapTest.FourPairArgs | test/MapTest.java:157-158 | the list a,1,…,d,4 has unique keys and builds {a→1, b→2, c→3, d→4} |
| MapTest.FourPairArgsLastFirst | test/MapTest.java:237-255 | the order d, c, b, a names each key of the four-pair map once, and the map holds 4, 3, 2, 1 for them |
| MapTest.TwoPairArgsEmptyValue | test/MapTest.java:321-324 | the list e,"",a,1, a prefix of the list at 321-324 and a step towards it, has unique keys and builds {e→"", a→1} |
| MapTest.FourPairArgsEmptyValue | test/MapTest.java:321-324 | the list e,"",a,1,b,2,c,3, a prefix of the list at 321-324 and a step towards it, has unique keys and builds the four-pair map with an empty value |
| MapTest.FivePairArgsEmptyValue | test/MapTest.java:321-324 | the list e,"",a,1,…,d,4 has unique keys and builds the five-pair map with an empty value |
| MapTest.AddScenario | test/MapTest.java:106-172 | adding an absent key k with value v to the map of args makes it equal to the map of args + [k, v] |
| MapTest.RemoveScenario | test/MapTest.java:177-220 | removing k from the map of args + [k, v] hands back (k, v) and makes it equal to the map of args |
| MapTest.RemoveAnyScenario | test/MapTest.java:262-339 | after removeAny on a non-empty map, an equal map has the returned key with the returned value, and removing that key from it makes the two equal again |
| MapTest.ValueScenario | test/MapTest.java:345-385 | value of a present key is the value paired with it in args, and the map still equals the map of args |
| MapTest.HasKeyScenario | test/MapTest.java:391-453 | hasKey is true exactly for keys of args, and the map still equals the map of args |
| MapTest.SizeScenario | test/MapTest.java:459-499 | size is the number of pairs in args, and the map still equals the map of args |
| MapTest.TestConstructorNoArgument | test/MapTest.java:88-99 | two newly constructed maps are equal |
| MapTest.TestAddBoundary | test/MapTest.java:106-123 | adding a→1 to the empty map gives {a→1} |
| MapTest.TestAddRoutine | test/MapTest.java:128-147 | adding d→4 to the three-pair map gives the four-pair map |
| MapTest.TestAddChallenging | test/MapTest.java:152-172 | the empty string is a legal key: adding ""→0 to the four-pair map gives the five-pair map |
| MapTest.TestRemoveBoundary | test/MapTest.java:177-195 | removing a from {a→1} hands back (a, 1) and leaves the empty map (the Java test discards the pair) |
| MapTest.TestRemoveRoutine | test/MapTest.java:200-220 | removing d from the four-pair map hands back (d, 4) and leaves the three-pair map (the Java test discards the pair) |
| MapTest.TestRemoveChallenging | test/MapTest.java:225-257 | removing d, c, b, a hands back (d,4), (c,3), (b,2), (a,1) in turn and leaves the empty map |
| MapTest.TestRemoveAnyBoundary | test/MapTest.java:262-283 | removeAny on {a→1}: the pair is in the expected map with its value, and removing it there makes the two maps equal |
| MapTest.TestRemoveAnyRoutine | test/MapTest.java:288-311 | the same on the four-pair map |
| MapTest.TestRemoveAnyChallenging | test/MapTest.java:316-339 | the same on the five-pair map with an empty value |
| MapTest.TestValueOneElement | test/MapTest.java:345-363 | value of a in {a→1} is 1 and the map is unchanged |
| MapTest.TestValueManyElement | test/MapTest.java:365-385 | value of b in the three-pair map is 2 and the map is unchanged |
| MapTest.TestHasKeyNoElement | test/MapTest.java:391-409 | hasKey of b in the empty map is false and the map is unchanged |
| MapTest.TestHasKeyManyElementsTrue | test/MapTest.java:411-431 | hasKey of b in the three-pair map is true and the map is unchanged |
| MapTest.TestHasKeyManyElementsFalse | test/MapTest.java:433-453 | hasKey of f in the three-pair map is false and the map is unchanged |
| MapTest.TestSizeNoElement | test/MapTest.java:459-477 | size of the empty map is 0 and the map is unchanged |
| MapTest.TestSizeManyElements | test/MapTest.java:479-499 | size of the three-pair map is 3 and the map is unchanged |

## Left out

- The implementation of `components.map.Map` is not part of this model. That
  covers its hash-table layout, `String.hashCode`, resizing and its own
  `equals`. The kernel here is backed by an association list, so its
  contracts are stated on the abstract map only. `Equals` follows the
  contents-only equality the fixture relies on.
- The split between the implementation under test and the reference
  implementation is not modelled. That covers `constructorTest` /
  `constructorRef` and `createFromArgsTest` / `createFromArgsRef`, which only
  pick which class to instantiate. There is one class, and the two
  construction loops, which are otherwise identical, are one method.
- The JUnit harness is left out: `@Test`, `assertEquals` wiring and assertion
  messages. Each `assertEquals` becomes a postcondition of the test method.
- Java's runtime `assert` and the exceptions thrown on a violated
  precondition are left out. They become `requires` clauses. The key-absence
  check inside the construction loop is computed with `HasKey` and proved
  always to pass.
- MapTest.TestRemoveChallenging: the four removals go through the loop of
  `RemoveAll` with the order d, c, b, a, rather than being four separate
  calls.
- MapKernel.Map.Add, MapKernel.Map.Remove, MapKernel.Map.RemoveAny: the change
  in size is not stated as a separate clause. It follows from the new abstract
  map (the old one plus or minus one key) together with `Size`.
- MapKernel.Map.Size: the result is an unbounded `nat`; the 32-bit width of
  Java's `int` is not modelled.
- The pair `removeAny` chooses is not part of any contract. The association
  list happens to take its last entry, but nothing relies on that.

=== FILE: assoc_list.dfy ===
/**
 An association list of (key, value) pairs is the backing representation of
 the map kernel. This module holds the pure side of the model: the abstract
 map an association list denotes, the key-uniqueness invariant, and the facts
 about them that the kernel operations and the fixture rely on.
 */
module AssocList {

  /** A detached (key, value) entry, as handed back by `remove` and `removeAny`. */
  datatype Pair = Pair(key: string, value: string)

  /** No two entries share a key: the map's key-uniqueness invariant. */
  ghost predicate Unique(s: seq<Pair>)
  {
    forall i, j :: 0 <= i < j < |s| ==> s[i].key != s[j].key
  }

  /** The keys that occur in s. */
  ghost function KeysOf(s: seq<Pair>): (ks: set<string>)
  {
    set i | 0 <= i < |s| :: s[i].key
  }

  /**
   The abstract map that s denotes. Later entries take precedence over
   earlier ones with the same key, which never matters while Unique(s) holds.
   */
  ghost function ToMap(s: seq<Pair>): (m: map<string, string>)
  {
    if s == [] then map[] else ToMap(s[..|s| - 1])[s[|s| - 1].key := s[|s| - 1].value]
  }

  /** The keys of the denoted map are exactly the keys of the entries. */
  lemma {:induction false} ToMapKeys(s: seq<Pair>)
    ensures ToMap(s).Keys == KeysOf(s)
  {
    if s != [] {
      var t := s[..|s| - 1];
      ToMapKeys(t);
      assert forall i :: 0 <= i < |t| ==> t[i] == s[i];
      assert KeysOf(s) == KeysOf(t) + {s[|s| - 1].key};
    }
  }

  /** With unique keys, each entry's value is what the denoted map holds for its key. */
  lemma {:induction false} ToMapAt(s: seq<Pair>, i: nat)
    requires Unique(s) && i < |s|
    ensures s[i].key in ToMap(s) && ToMap(s)[s[i].key] == s[i].value
  {
    var n := |s| - 1;
    if i < n {
      var t := s[..n];
      assert Unique(t);
      assert t[i] == s[i];
      ToMapAt(t, i);
    }
  }

  /** With unique keys, every pair of the denoted map is an entry. */
  lemma ToMapPairIn(s: seq<Pair>, k: string)
    requires Unique(s) && k in ToMap(s)
    ensures Pair(k, ToMap(s)[k]) in s
  {
    ToMapKeys(s);
    var i :| 0 <= i < |s| && s[i].key == k;
    ToMapAt(s, i);
  }

  /** With unique keys, the denoted map has one pair per entry. */
  lemma {:induction false} ToMapSize(s: seq<Pair>)
    requires Unique(s)
    ensures |ToMap(s)| == |s|
  {
    if s != [] {
      var t := s[..|s| - 1];
      assert Unique(t);
      ToMapSize(t);
      ToMapKeys(t);
      assert s[|s| - 1].key !in KeysOf(t);
    }
  }

  /**
   Adding an entry whose key is absent keeps the keys unique and adds exactly
   that pair to the denoted map.
   */
  lemma ToMapAppend(s: seq<Pair>, p: Pair)
    requires Unique(s) && p.key !in ToMap(s)
    ensures Unique(s + [p])
    ensures ToMap(s + [p]) == ToMap(s)[p.key := p.value]
  {
    ToMapKeys(s);
    assert (s + [p])[..|s|] == s;
  }

  /**
   Growing a unique prefix of s by one entry: the next key is not yet in the
   prefix's map, and the longer prefix denotes the shorter one plus that pair.
   */
  lemma ToMapExtend(s: seq<Pair>, h: nat)
    requires Unique(s) && h < |s|
    ensures Unique(s[..h]) && s[h].key !in ToMap(s[..h])
    ensures ToMap(s[..h + 1]) == ToMap(s[..h])[s[h].key := s[h].value]
  {
    ToMapKeys(s[..h]);
    assert s[..h + 1][..h] == s[..h];
  }

  /** Splicing out entry i keeps the remaining keys unique. */
  lemma UniqueRemoveAt(s: seq<Pair>, i: nat)
    requires Unique(s) && i < |s|
    ensures Unique(s[..i] + s[i + 1..])
  {
    var r := s[..i] + s[i + 1..];
    assert forall a :: 0 <= a < |r| ==> r[a] == s[if a < i then a else a + 1];
  }

  /**
   Splicing out entry i keeps the keys unique and removes exactly that entry's
   key from the denoted map; every other pair is unchanged.
   */
  lemma {:induction false} ToMapRemoveAt(s: seq<Pair>, i: nat)
    requires Unique(s) && i < |s|
    ensures Unique(s[..i] + s[i + 1..])
    ensures ToMap(s[..i] + s[i + 1..]) == ToMap(s) - {s[i].key}
  {
    UniqueRemoveAt(s, i);
    var n := |s| - 1;
    var t := s[..n];
    ToMapExtend(s, n);
    assert s[..n + 1] == s;
    UpdateThenRemove(ToMap(t), s[n].key, s[n].value);
    if i == n {
      assert s[..i] + s[i + 1..] == t;
    } else {
      var r := t[..i] + t[i + 1..];
      ToMapRemoveAt(t, i);
      assert t[i] == s[i];
      assert s[..i] + s[i + 1..] == r + [s[n]];
      ToMapAppend(r, s[n]);
      RemoveThenUpdate(ToMap(t), s[i].key, s[n].key, s[n].value);
    }
  }

  /** Adding an absent key and then removing it gives back the map. */
  lemma UpdateThenRemove(m: map<string, string>, k: string, v: string)
    requires k !in m
    ensures m[k := v] - {k} == m
  {
  }

  /** Removing one key and adding another commute. */
  lemma RemoveThenUpdate(m: map<string, string>, x: string, y: string, v: string)
    requires x != y
    ensures (m - {x})[y := v] == m[y := v] - {x}
  {
  }

  /** With unique keys, every entry is a pair of the denoted map. */
  lemma PairInToMap(s: seq<Pair>, p: Pair)
    requires Unique(s) && p in s
    ensures p.key in ToMap(s) && ToMap(s)[p.key] == p.value
  {
    var i :| 0 <= i < |s| && s[i] == p;
    ToMapAt(s, i);
  }

  /**
   Equality by contents, not by history: two unique-key lists holding the same
   entries in any order denote the same map.
   */
  lemma ToMapPermutation(s: seq<Pair>, t: seq<Pair>)
    requires Unique(s) && Unique(t) && multiset(s) == multiset(t)
    ensures ToMap(s) == ToMap(t)
  {
    forall k | k in ToMap(s)
      ensures k in ToMap(t) && ToMap(t)[k] == ToMap(s)[k]
    {
      var p := Pair(k, ToMap(s)[k]);
      ToMapPairIn(s, k);
      assert p in multiset(t);
      PairInToMap(t, p);
    }
    assert |s| == |multiset(s)| == |multiset(t)| == |t|;
    ToMapSize(s);
    ToMapSize(t);
    SubmapOfSameSize(ToMap(s), ToMap(t));
  }

  /** A map that agrees with n on all its own keys and is as large as n is n. */
  lemma SubmapOfSameSize(m: map<string, string>, n: map<string, string>)
    requires |m| == |n|
    requires forall k :: k in m ==> k in n && n[k] == m[k]
    ensures m == n
  {
    var extra := n.Keys - m.Keys;
    assert n.Keys == m.Keys + extra;
    assert |n.Keys| == |m.Keys| + |extra|;
    assert extra == {};
  }
}

=== FILE: map_kernel.dfy ===
/**
 The kernel of a `Map<String, String>` container: a mutable object whose
 abstract value is a finite map from keys to values, with keys unique by
 construction. The object keeps its entries in an association list; its
 abstract value is the map that list denotes.
 */
module MapKernel {
  import opened AssocList

  class Map {
    /** The entries, in insertion order; the order is not part of the abstract value. */
    var entries: seq<Pair>

    /** The object invariant: no key occurs twice. */
    ghost predicate Valid()
      reads this
    {
      Unique(entries)
    }

    /** The abstract value: the finite key-to-value map this object stands for. */
    ghost function Model(): (m: map<string, string>)
      reads this
    {
      ToMap(entries)
    }

    /** Creates an empty map. */
    constructor ()
      ensures Valid() && Model() == map[]
    {
      entries := [];
    }

    /** Looks k up in the entries: the position of the entry holding it, if any. */
    method Find(k: string) returns (found: bool, i: nat)
      ensures found ==> i < |entries| && entries[i].key == k
      ensures !found ==> k !in KeysOf(entries)
    {
      i := 0;
      while i < |entries|
        invariant i <= |entries|
        invariant forall j :: 0 <= j < i ==> entries[j].key != k
      {
        if entries[i].key == k {
          return true, i;
        }
        i := i + 1;
      }
      found := false;
    }

    /** Adds the pair (k, v); k must not be a key yet. */
    method Add(k: string, v: string)
      requires Valid() && k !in Model()
      modifies this
      ensures Valid()
      ensures Model() == old(Model())[k := v]
    {
      ToMapAppend(entries, Pair(k, v));
      entries := entries + [Pair(k, v)];
    }

    /** Removes the pair whose key is k and hands it back detached. */
    method Remove(k: string) returns (p: Pair)
      requires Valid() && k in Model()
      modifies this
      ensures Valid()
      ensures p.key == k && p.value == old(Model())[k]
      ensures Model() == old(Model()) - {k}
    {
      ToMapKeys(entries);
      var found, i := Find(k);
      p := entries[i];
      ToMapAt(entries, i);
      ToMapRemoveAt(entries, i);
      entries := entries[..i] + entries[i + 1..];
    }

    /**
     Removes some pair and hands it back detached. Which pair is taken is not
     promised: only that it was present, with that value, and is gone now.
     */
    method RemoveAny() returns (p: Pair)
      requires Valid() && |Model()| > 0
      modifies this
      ensures Valid()
      ensures p.key in old(Model()) && old(Model())[p.key] == p.value
      ensures Model() == old(Model()) - {p.key}
    {
      var n := |entries| - 1;
      p := entries[n];
      ToMapAt(entries, n);
      ToMapRemoveAt(entries, n);
      entries := entries[..n] + entries[n + 1..];
    }

    /** The value stored for k, which must be a key. */
    method Value(k: string) returns (v: string)
      requires Valid() && k in Model()
      ensures v == Model()[k]
    {
      ToMapKeys(entries);
      var found, i := Find(k);
      ToMapAt(entries, i);
      v := entries[i].value;
    }

    /** Whether k is a key. */
    method HasKey(k: string) returns (b: bool)
      ensures b <==> k in Model()
    {
      var i;
      b, i := Find(k);
      ToMapKeys(entries);
    }

    /** The number of pairs. */
    method Size() returns (n: nat)
      requires Valid()
      ensures n == |Model()|
      ensures n == 0 <==> Model() == map[]
    {
      ToMapSize(entries);
      n := |entries|;
    }

    /**
     Structural equality: the same number of pairs, and every key of this map
     is a key of other with the same value. It holds exactly when the two
     abstract values are equal, whatever order the entries were added in.
     */
    method Equals(other: Map) returns (eq: bool)
      requires Valid() && other.Valid()
      ensures eq <==> Model() == other.Model()
    {
      var n := Size();
      var m := other.Size();
      if n != m {
        return false;
      }
      var i := 0;
      while i < |entries|
        invariant i <= |entries|
        invariant forall j :: 0 <= j < i ==>
                    entries[j].key in other.Model() && other.Model()[entries[j].key] == entries[j].value
      {
        var key := entries[i].key;
        ToMapAt(entries, i);
        var has := other.HasKey(key);
        if !has {
          return false;
        }
        var w := other.Value(key);
        if w != entries[i].value {
          return false;
        }
        i := i + 1;
      }
      ToMapKeys(entries);
      forall k | k in Model()
        ensures k in other.Model() && other.Model()[k] == Model()[k]
      {
        var j :| 0 <= j < |entries| && entries[j].key == k;
        ToMapAt(entries, j);
      }
      SubmapOfSameSize(Model(), other.Model());
      eq := true;
    }
  }
}

=== FILE: map_test.dfy ===
/**
 The test fixture of the map kernel: bulk construction of a map from an
 argument list k0, v0, k1, v1, ..., and the fixture's scenarios as client
 methods whose assertions follow from the kernel's contracts alone.
 A call `assertEquals(expected, actual)` becomes a call of `Equals` whose
 answer is asserted.
 */
module MapTest {
  import opened AssocList
  import opened MapKernel

  /** The (key, value) pairs of an even-length argument list, in order. */
  ghost function ArgPairs(args: seq<string>): (ps: seq<Pair>)
    requires |args| % 2 == 0
    ensures |ps| == |args| / 2
  {
    seq(|args| / 2, j requires 0 <= j < |args| / 2 => Pair(args[2 * j], args[2 * j + 1]))
  }

  /** Entry i / 2 of the pairs is the key at even position i and the value after it. */
  lemma ArgPairsAt(args: seq<string>, i: nat)
    requires |args| % 2 == 0 && i < |args| && i % 2 == 0
    ensures |ArgPairs(args)| == |args| / 2 && i / 2 < |ArgPairs(args)|
    ensures ArgPairs(args)[i / 2] == Pair(args[i], args[i + 1])
  {
  }

  /** Appending a key and a value to an argument list appends that pair. */
  lemma ArgPairsAppend(args: seq<string>, k: string, v: string)
    requires |args| % 2 == 0
    ensures ArgPairs(args + [k, v]) == ArgPairs(args) + [Pair(k, v)]
  {
  }

  /**
   The map holding exactly the pairs of args, part one: each key at an even
   position is present with the value that follows it.
   */
  lemma ArgsInPairs(args: seq<string>)
    requires |args| % 2 == 0 && Unique(ArgPairs(args))
    ensures forall i :: 0 <= i < |args| && i % 2 == 0 ==>
              args[i] in ToMap(ArgPairs(args)) && ToMap(ArgPairs(args))[args[i]] == args[i + 1]
  {
    var ps := ArgPairs(args);
    forall i | 0 <= i < |args| && i % 2 == 0
      ensures args[i] in ToMap(ps) && ToMap(ps)[args[i]] == args[i + 1]
    {
      ArgPairsAt(args, i);
      ToMapAt(ps, i / 2);
    }
  }

  /**
   The map holding exactly the pairs of args, part two: only keys of args are
   present, and there are as many pairs as keys in args.
   */
  lemma PairsInArgs(args: seq<string>)
    requires |args| % 2 == 0 && Unique(ArgPairs(args))
    ensures forall k :: k in ToMap(ArgPairs(args)) ==> exists i :: 0 <= i < |args| && i % 2 == 0 && args[i] == k
    ensures |ToMap(ArgPairs(args))| == |args| / 2
  {
    var ps := ArgPairs(args);
    ToMapKeys(ps);
    forall k | k in ToMap(ps)
      ensures exists i :: 0 <= i < |args| && i % 2 == 0 && args[i] == k
    {
      var j :| 0 <= j < |ps| && ps[j].key == k;
      ArgPairsAt(args, 2 * j);
    }
    ToMapSize(ps);
  }

  /**
   Appending a key that is not yet a key of args, and a value, keeps the keys
   unique and adds exactly that pair to the map of args.
   */
  lemma PairsInArgsAppend(args: seq<string>, k: string, v: string)
    requires |args| % 2 == 0 && Unique(ArgPairs(args)) && k !in ToMap(ArgPairs(args))
    ensures Unique(ArgPairs(args + [k, v]))
    ensures ToMap(ArgPairs(args + [k, v])) == ToMap(ArgPairs(args))[k := v]
  {
    ArgPairsAppend(args, k, v);
    ToMapAppend(ArgPairs(args), Pair(k, v));
  }

  /**
   Builds a map from an argument list by adding its pairs one after the other.
   The list has even length and its keys are unique; the result holds exactly
   the pairs of the list.
   */
  method CreateFromArgs(args: seq<string>) returns (m: Map)
    requires |args| % 2 == 0 && Unique(ArgPairs(args))
    ensures fresh(m) && m.Valid()
    ensures m.Model() == ToMap(ArgPairs(args))
  {
    ghost var ps := ArgPairs(args);
    m := new Map();
    var i := 0;
    while i < |args|
      invariant i <= |args| && i % 2 == 0
      invariant fresh(m) && m.Valid()
      invariant m.Model() == ToMap(ps[..i / 2])
    {
      ArgPairsAt(args, i);
      ToMapExtend(ps, i / 2);
      var present := m.HasKey(args[i]);
      assert !present;
      m.Add(args[i], args[i + 1]);
      i := i + 2;
    }
    assert ps[..i / 2] == ps;
  }

  /** m with the keys ks taken out, one after the other. */
  ghost function Without(m: map<string, string>, ks: seq<string>): (rest: map<string, string>)
  {
    if ks == [] then m else Without(m, ks[..|ks| - 1]) - {ks[|ks| - 1]}
  }

  /** A key is left exactly when it was in m and is not one of ks, and then with its value in m. */
  lemma {:induction false} WithoutKey(m: map<string, string>, ks: seq<string>, k: string)
    ensures k in Without(m, ks) <==> k in m && k !in ks
    ensures k in Without(m, ks) ==> Without(m, ks)[k] == m[k]
  {
    if ks != [] {
      var init := ks[..|ks| - 1];
      WithoutKey(m, init, k);
      assert ks == init + [ks[|ks| - 1]];
    }
  }

  /** Taking out one more key of the list takes that key out of the map. */
  lemma WithoutStep(m: map<string, string>, ks: seq<string>, j: nat)
    requires j < |ks|
    ensures Without(m, ks[..j + 1]) == Without(m, ks[..j]) - {ks[j]}
  {
    assert ks[..j + 1][..j] == ks[..j];
  }

  /** Taking out a list that covers every key of m leaves the empty map. */
  lemma WithoutAll(m: map<string, string>, ks: seq<string>)
    requires forall k :: k in m ==> k in ks
    ensures Without(m, ks) == map[]
  {
    forall k | k in m
      ensures k !in Without(m, ks)
    {
      WithoutKey(m, ks, k);
    }
    forall k | k !in m
      ensures k !in Without(m, ks)
    {
      WithoutKey(m, ks, k);
    }
    assert Without(m, ks).Keys == {};
  }

  /**
   Removes the keys of m one at a time in the given order, which names every
   key once. Each removal hands back the pair m held for that key, and m ends
   empty.
   */
  method RemoveAll(m: Map, order: seq<string>) returns (removed: seq<Pair>)
    requires m.Valid()
    requires forall a, b :: 0 <= a < b < |order| ==> order[a] != order[b]
    requires forall k :: k in order <==> k in m.Model()
    modifies m
    ensures m.Valid() && m.Model() == map[]
    ensures |removed| == |order|
    ensures forall j :: 0 <= j < |order| ==> order[j] in old(m.Model()) && removed[j] == Pair(order[j], old(m.Model())[order[j]])
  {
    ghost var start := m.Model();
    removed := [];
    var j := 0;
    while j < |order|
      invariant j <= |order| && |removed| == j
      invariant m.Valid() && m.Model() == Without(start, order[..j])
      invariant forall a :: 0 <= a < j ==> order[a] in start && removed[a] == Pair(order[a], start[order[a]])
    {
      WithoutKey(start, order[..j], order[j]);
      WithoutStep(start, order, j);
      var p := m.Remove(order[j]);
      removed := removed + [p];
      j := j + 1;
    }
    assert order[..j] == order;
    WithoutAll(start, order);
  }

  /**
   Builds a map from args, then removes its keys one at a time in the given
   order, which names every key once. Each removal hands back exactly the pair
   that was inserted for that key, and the map ends equal to a map built from
   no arguments.
   */
  method CreateThenRemoveAll(args: seq<string>, order: seq<string>) returns (removed: seq<Pair>, eq: bool)
    requires |args| % 2 == 0 && Unique(ArgPairs(args))
    requires forall a, b :: 0 <= a < b < |order| ==> order[a] != order[b]
    requires forall k :: k in order <==> k in ToMap(ArgPairs(args))
    ensures |removed| == |order|
    ensures forall j :: 0 <= j < |order| ==>
              removed[j] in ArgPairs(args) && removed[j] == Pair(order[j], ToMap(ArgPairs(args))[order[j]])
    ensures eq
  {
    EmptyArgs();
    var m := CreateFromArgs(args);
    var expectedMap := CreateFromArgs([]);
    removed := RemoveAll(m, order);
    forall j | 0 <= j < |order|
      ensures removed[j] in ArgPairs(args)
    {
      ToMapPairIn(ArgPairs(args), order[j]);
    }
    eq := expectedMap.Equals(m);
  }

  /*
   The maps of the argument lists the scenarios below start from, each given
   by its pairs; every one of these lists has unique keys.
   */

  lemma EmptyArgs()
    ensures Unique(ArgPairs([])) && ToMap(ArgPairs([])) == map[]
  {
    assert ArgPairs([]) == [];
  }

  lemma OnePairArgs()
    ensures Unique(ArgPairs(["a", "1"])) && ToMap(ArgPairs(["a", "1"])) == map["a" := "1"]
  {
    EmptyArgs();
    assert ["a", "1"] == [] + ["a", "1"];
    PairsInArgsAppend([], "a", "1");
  }

  lemma ThreePairArgs()
    ensures Unique(ArgPairs(["a", "1", "b", "2", "c", "3"]))
    ensures ToMap(ArgPairs(["a", "1", "b", "2", "c", "3"])) == map["a" := "1", "b" := "2", "c" := "3"]
  {
    OnePairArgs();
    assert ["a", "1", "b", "2"] == ["a", "1"] + ["b", "2"];
    PairsInArgsAppend(["a", "1"], "b", "2");
    assert ["a", "1", "b", "2", "c", "3"] == ["a", "1", "b", "2"] + ["c", "3"];
    PairsInArgsAppend(["a", "1", "b", "2"], "c", "3");
  }

  lemma FourPairArgs()
    ensures Unique(ArgPairs(["a", "1", "b", "2", "c", "3", "d", "4"]))
    ensures ToMap(ArgPairs(["a", "1", "b", "2", "c", "3", "d", "4"]))
            == map["a" := "1", "b" := "2", "c" := "3", "d" := "4"]
  {
    ThreePairArgs();
    assert ["a", "1", "b", "2", "c", "3", "d", "4"] == ["a", "1", "b", "2", "c", "3"] + ["d", "4"];
    PairsInArgsAppend(["a", "1", "b", "2", "c", "3"], "d", "4");
  }

  /**
   The order d, c, b, a names every key of the four-pair list once, and the
   four-pair map holds 4, 3, 2, 1 for those keys.
   */
  lemma FourPairArgsLastFirst()
    ensures Unique(ArgPairs(["a", "1", "b", "2", "c", "3", "d", "4"]))
    ensures forall a, b :: 0 <= a < b < 4 ==> ["d", "c", "b", "a"][a] != ["d", "c", "b", "a"][b]
    ensures forall k :: k in ["d", "c", "b", "a"] <==> k in ToMap(ArgPairs(["a", "1", "b", "2", "c", "3", "d", "4"]))
    ensures ToMap(ArgPairs(["a", "1", "b", "2", "c", "3", "d", "4"]))["d"] == "4"
    ensures ToMap(ArgPairs(["a", "1", "b", "2", "c", "3", "d", "4"]))["c"] == "3"
    ensures ToMap(ArgPairs(["a", "1", "b", "2", "c", "3", "d", "4"]))["b"] == "2"
    ensures ToMap(ArgPairs(["a", "1", "b", "2", "c", "3", "d", "4"]))["a"] == "1"
  {
    FourPairArgs();
  }

  lemma TwoPairArgsEmptyValue()
    ensures Unique(ArgPairs(["e", "", "a", "1"]))
    ensures ToMap(ArgPairs(["e", "", "a", "1"])) == map["e" := "", "a" := "1"]
  {
    EmptyArgs();
    assert ["e", ""] == [] + ["e", ""];
    PairsInArgsAppend([], "e", "");
    assert ["e", "", "a", "1"] == ["e", ""] + ["a", "1"];
    PairsInArgsAppend(["e", ""], "a", "1");
  }

  lemma FourPairArgsEmptyValue()
    ensures Unique(ArgPairs(["e", "", "a", "1", "b", "2", "c", "3"]))
    ensures ToMap(ArgPairs(["e", "", "a", "1", "b", "2", "c", "3"]))
            == map["e" := "", "a" := "1", "b" := "2", "c" := "3"]
  {
    TwoPairArgsEmptyValue();
    assert ["e", "", "a", "1", "b", "2"] == ["e", "", "a", "1"] + ["b", "2"];
    PairsInArgsAppend(["e", "", "a", "1"], "b", "2");
    assert ["e", "", "a", "1", "b", "2", "c", "3"] == ["e", "", "a", "1", "b", "2"] + ["c", "3"];
    PairsInArgsAppend(["e", "", "a", "1", "b", "2"], "c", "3");
  }

  lemma FivePairArgsEmptyValue()
    ensures Unique(ArgPairs(["e", "", "a", "1", "b", "2", "c", "3", "d", "4"]))
    ensures ToMap(ArgPairs(["e", "", "a", "1", "b", "2", "c", "3", "d", "4"]))
            == map["e" := "", "a" := "1", "b" := "2", "c" := "3", "d" := "4"]
  {
    FourPairArgsEmptyValue();
    assert ["e", "", "a", "1", "b", "2", "c", "3", "d", "4"] == ["e", "", "a", "1", "b", "2", "c", "3"] + ["d", "4"];
    PairsInArgsAppend(["e", "", "a", "1", "b", "2", "c", "3"], "d", "4");
  }

  /*
   The scenarios of the fixture, each over an arbitrary argument list. Every
   scenario builds a map and an expected map from argument lists, and
   compares the two with Equals at the end. Most scenarios apply one kernel
   operation to the map; the removeAny scenario then queries and shrinks the
   expected map.
   */

  /** Adding an absent key k with value v to the map of args gives the map of args + [k, v]. */
  method AddScenario(args: seq<string>, k: string, v: string) returns (eq: bool)
    requires |args| % 2 == 0 && Unique(ArgPairs(args)) && k !in ToMap(ArgPairs(args))
    ensures eq
  {
    PairsInArgsAppend(args, k, v);
    var m := CreateFromArgs(args);
    var expectedMap := CreateFromArgs(args + [k, v]);
    m.Add(k, v);
    eq := expectedMap.Equals(m);
  }

  /**
   Removing the last-added key k from the map of args + [k, v] hands back the
   pair (k, v) and gives the map of args.
   */
  method RemoveScenario(args: seq<string>, k: string, v: string) returns (pair: Pair, eq: bool)
    requires |args| % 2 == 0 && Unique(ArgPairs(args)) && k !in ToMap(ArgPairs(args))
    ensures pair.key == k && pair.value == v
    ensures eq
  {
    PairsInArgsAppend(args, k, v);
    UpdateThenRemove(ToMap(ArgPairs(args)), k, v);
    var m := CreateFromArgs(args + [k, v]);
    var expectedMap := CreateFromArgs(args);
    pair := m.Remove(k);
    eq := expectedMap.Equals(m);
  }

  /**
   removeAny on the non-empty map of args: the pair handed back is present in
   an equal map with the same value, and removing its key from that map gives
   the map removeAny left behind.
   */
  method RemoveAnyScenario(args: seq<string>) returns (has: bool, sameValue: bool, eq: bool)
    requires |args| % 2 == 0 && Unique(ArgPairs(args)) && |args| > 0
    ensures has && sameValue && eq
  {
    PairsInArgs(args);
    var m := CreateFromArgs(args);
    var expectedMap := CreateFromArgs(args);
    var pair := m.RemoveAny();
    has := expectedMap.HasKey(pair.key);
    var v := expectedMap.Value(pair.key);
    sameValue := v == pair.value;
    var _ := expectedMap.Remove(pair.key);
    eq := expectedMap.Equals(m);
  }

  /** value of a key k of the map of args is the value paired with k, and the map is left as it was. */
  method ValueScenario(args: seq<string>, k: string) returns (eq: bool, str: string)
    requires |args| % 2 == 0 && Unique(ArgPairs(args)) && k in ToMap(ArgPairs(args))
    ensures eq && str == ToMap(ArgPairs(args))[k]
  {
    var m := CreateFromArgs(args);
    var expectedMap := CreateFromArgs(args);
    str := m.Value(k);
    eq := expectedMap.Equals(m);
  }

  /** hasKey tells whether k is a key of the map of args, and the map is left as it was. */
  method HasKeyScenario(args: seq<string>, k: string) returns (eq: bool, results: bool)
    requires |args| % 2 == 0 && Unique(ArgPairs(args))
    ensures eq && (results <==> k in ToMap(ArgPairs(args)))
  {
    var m := CreateFromArgs(args);
    var expectedMap := CreateFromArgs(args);
    results := m.HasKey(k);
    eq := expectedMap.Equals(m);
  }

  /** size of the map of args is the number of pairs in args, and the map is left as it was. */
  method SizeScenario(args: seq<string>) returns (eq: bool, s: nat)
    requires |args| % 2 == 0 && Unique(ArgPairs(args))
    ensures eq && s == |args| / 2
  {
    PairsInArgs(args);
    var m := CreateFromArgs(args);
    var expectedMap := CreateFromArgs(args);
    s := m.Size();
    eq := expectedMap.Equals(m);
  }

  /*
   The test cases: the scenarios on the fixture's own argument lists, except
   for the constructor test and the four-removal test.
   */

  /** Two freshly constructed maps are equal. */
  method TestConstructorNoArgument() returns (eq: bool)
    ensures eq
  {
    var size := new Map();
    var sizeExpected := new Map();
    eq := sizeExpected.Equals(size);
  }

  /** Adding to the empty map. */
  method TestAddBoundary() returns (eq: bool)
    ensures eq
  {
    EmptyArgs();
    eq := AddScenario([], "a", "1");
  }

  /** Adding to a map of three pairs. */
  method TestAddRoutine() returns (eq: bool)
    ensures eq
  {
    ThreePairArgs();
    eq := AddScenario(["a", "1", "b", "2", "c", "3"], "d", "4");
  }

  /** The empty string is a legal key. */
  method TestAddChallenging() returns (eq: bool)
    ensures eq
  {
    FourPairArgs();
    eq := AddScenario(["a", "1", "b", "2", "c", "3", "d", "4"], "", "0");
  }

  /** Removing the only pair leaves the empty map. */
  method TestRemoveBoundary() returns (pair: Pair, eq: bool)
    ensures pair.key == "a" && pair.value == "1"
    ensures eq
  {
    EmptyArgs();
    pair, eq := RemoveScenario([], "a", "1");
  }

  /** Removing one pair of four. */
  method TestRemoveRoutine() returns (pair: Pair, eq: bool)
    ensures pair.key == "d" && pair.value == "4"
    ensures eq
  {
    ThreePairArgs();
    pair, eq := RemoveScenario(["a", "1", "b", "2", "c", "3"], "d", "4");
  }

  /** Removing all four pairs, last key first: each removal returns its pair. */
  method TestRemoveChallenging() returns (pair: Pair, pair2: Pair, pair3: Pair, pair4: Pair, eq: bool)
    ensures pair.key == "d" && pair.value == "4"
    ensures pair2.key == "c" && pair2.value == "3"
    ensures pair3.key == "b" && pair3.value == "2"
    ensures pair4.key == "a" && pair4.value == "1"
    ensures eq
  {
    FourPairArgsLastFirst();
    var removed;
    removed, eq := CreateThenRemoveAll(["a", "1", "b", "2", "c", "3", "d", "4"], ["d", "c", "b", "a"]);
    pair, pair2, pair3, pair4 := removed[0], removed[1], removed[2], removed[3];
  }

  /** removeAny on a one-pair map. */
  method TestRemoveAnyBoundary() returns (has: bool, sameValue: bool, eq: bool)
    ensures has && sameValue && eq
  {
    OnePairArgs();
    has, sameValue, eq := RemoveAnyScenario(["a", "1"]);
  }

  /** removeAny on a four-pair map. */
  method TestRemoveAnyRoutine() returns (has: bool, sameValue: bool, eq: bool)
    ensures has && sameValue && eq
  {
    FourPairArgs();
    has, sameValue, eq := RemoveAnyScenario(["a", "1", "b", "2", "c", "3", "d", "4"]);
  }

  /** removeAny on a five-pair map one of whose values is the empty string. */
  method TestRemoveAnyChallenging() returns (has: bool, sameValue: bool, eq: bool)
    ensures has && sameValue && eq
  {
    FivePairArgsEmptyValue();
    has, sameValue, eq := RemoveAnyScenario(["e", "", "a", "1", "b", "2", "c", "3", "d", "4"]);
  }

  /** value on a one-pair map. */
  method TestValueOneElement() returns (eq: bool, str: string)
    ensures eq && str == "1"
  {
    OnePairArgs();
    eq, str := ValueScenario(["a", "1"], "a");
  }

  /** value on a three-pair map. */
  method TestValueManyElement() returns (eq: bool, str: string)
    ensures eq && str == "2"
  {
    ThreePairArgs();
    eq, str := ValueScenario(["a", "1", "b", "2", "c", "3"], "b");
  }

  /** hasKey on the empty map. */
  method TestHasKeyNoElement() returns (eq: bool, results: bool)
    ensures eq && !results
  {
    EmptyArgs();
    eq, results := HasKeyScenario([], "b");
  }

  /** hasKey of a present key. */
  method TestHasKeyManyElementsTrue() returns (eq: bool, results: bool)
    ensures eq && results
  {
    ThreePairArgs();
    eq, results := HasKeyScenario(["a", "1", "b", "2", "c", "3"], "b");
  }

  /** hasKey of an absent key. */
  method TestHasKeyManyElementsFalse() returns (eq: bool, results: bool)
    ensures eq && !results
  {
    ThreePairArgs();
    eq, results := HasKeyScenario(["a", "1", "b", "2", "c", "3"], "f");
  }

  /** size of the empty map. */
  method TestSizeNoElement() returns (eq: bool, s: nat)
    ensures eq && s == 0
  {
    EmptyArgs();
    eq, s := SizeScenario([]);
  }

  /** size of a three-pair map. */
  method TestSizeManyElements() returns (eq: bool, s: nat)
    ensures eq && s == 3
  {
    ThreePairArgs();
    eq, s := SizeScenario(["a", "1", "b", "2", "c", "3"]);
  }
}
